=== FILE: README.md ===
# LogoMotion workflow model

A Dafny model of the browser tool that turns a text description into a logo and then into a short animated video. The tool uses a text-to-image model and an image-to-video model. Only the orchestration has any logic, and that is what is modelled:

- **The workflow** (`App.tsx`). A session is a triple: the current screen (`AppState`), the generated content (`GeneratedContent`) and the last error. Three entry points change it: generate a logo, animate it, reset. Each asynchronous handler is split into two steps:
  - a *start* step, which clears the error and enters the transient screen;
  - a *settle* step, which takes the awaited call's outcome.

  An outcome is `Settled(Success(v))`, `Settled(Failure(message))` or `Pending`. `Pending` stands for a call that never settles.
- **The generation client** (`services/gemini.ts`). This covers:
  - the image prompt template and the fixed request configurations;
  - the checks on what the APIs return;
  - the credential gate in front of the video call;
  - the poll loop that waits for the long-running video job;
  - the final download.

  The SDK, `fetch`, the host's key picker and the timers are parameters. Everything the client does with them is recorded as a trace of `Effect`s. The poll loop runs over a finite sequence of refetch replies.
- **The screens' controls** (`Ui`). This module records which control each screen offers, so the model can state what the rendered application can and cannot reach (see Findings).

Modules: `Wrappers` (`Option`, `Result`, `Call`), `Types` (types.ts), `Gemini` (services/gemini.ts), `Workflow` (App.tsx handlers and their composition with the client), `Ui` (App.tsx rendering, reduced to controls).

JavaScript truthiness is written out. An empty string counts as missing in these checks:
- `!content.imageBase64` (nothing to animate, and nothing to render on the image-review screen);
- `!content.videoUrl` (nothing to render on the video-review screen);
- `err.message || default`;
- `prompt || default`;
- the `imageBytes` check;
- the `uri` check.

A thrown value without a message is modelled as the message `""`.

Points where the code's behaviour is easy to misread:
- Errors are plain message strings, not named kinds.
- The style is any string; the form offers six presets.
- The 500 ms wait of the credential gate happens only after the key picker was opened.
- The default motion prompt is reachable only by a direct call: the animation form disables its submit button for a blank prompt.
- A failed video call keeps *all* of the content, not only the image.
- The status of the operation returned by the submission is the loop's first observation. The number of refetches is therefore the number of not-done statuses before the first done one, counting that first status.

## Model

| member | source | states |
|---|---|---|
| Gemini.EnhancedPrompt | services/gemini.ts:26 | the image prompt is the fixed template with the concept and then the style inserted verbatim at fixed positions |
| Gemini.EnhancedPromptKeepsConcept | services/gemini.ts:26 | for a given style, two concepts giving the same prompt are equal |
| Gemini.BuildImageRequest | services/gemini.ts:28-36 | the image request asks for exactly one image, `image/jpeg`, aspect `1:1`, from the enriched prompt |
| Gemini.ImageConfigIsFixed | services/gemini.ts:31-35 | every image request carries the same configuration whatever the input |
| Gemini.GenerateLogoImage | services/gemini.ts:38-42 | succeeds iff the API answered with non-empty bytes for the first image, returning exactly those bytes; otherwise fails with "No image data returned from Gemini."; a rejected API call passes its error on |
| Gemini.MotionPrompt | services/gemini.ts:60 | the motion prompt is the caller's when non-empty, otherwise "Cinematic camera movement, bringing the logo to life"; never empty |
| Gemini.BuildVideoRequest | services/gemini.ts:45-70 | the video request is one 720p video from the JPEG image with the motion prompt and the given aspect ratio, 16:9 when omitted |
| Gemini.KeyGate | services/gemini.ts:5-16 | the host is asked for a key only when the studio host exists; the picker opens only if it reports none; the 500 ms wait follows the picker only when the picker closes; in that order (check, picker, wait), each at most once; the gate completes unless the picker never closes |
| Gemini.PollLoop | services/gemini.ts:76-81 | the loop runs one iteration per observed not-done status, stops at the first done status (returning it), at the first rejected refetch (with its error), or after the last reply (still running) |
| Gemini.PollRoundsCounts | services/gemini.ts:76-81 | n iterations perform exactly n 5000 ms waits and n refetches |
| Gemini.PollStopsAtFirstDone | services/gemini.ts:76-81 | when every refetch succeeds, the loop completes iff some done flag is set, after exactly as many iterations as there are flags before the first one |
| Gemini.FetchVideo | services/gemini.ts:84-99 | a missing or empty link fails with "Video generation completed but no URI was returned." before any download; otherwise exactly one download from the link with `&key=` and the key appended, after which a rejected fetch passes its error on, a non-OK answer fails with "Failed to download video: " and the status text, and an OK answer succeeds with the local blob URL |
| Gemini.AwaitVideo | services/gemini.ts:72-99 | after submission come one initial wait, then the loop's iterations, then, only once the job reports done, exactly the download stage's effects and nothing else; nothing of the gate or a second submission; a loop still running leaves the call pending with no download, a rejected refetch fails with its error, and a finished job settles as its download does |
| Gemini.AwaitVideoCounts | services/gemini.ts:72-81 | after submission there is exactly one more 5000 ms wait than there are refetches |
| Gemini.AnimateLogoVideo | services/gemini.ts:51-70 | the gate's effects come first; the single submission comes right after them, and only when the gate completed; no gate effect or other submission follows |
| Gemini.GateEffectCounts | services/gemini.ts:5-16 | in a trace that starts with the gate, the picker opens once exactly when the studio host reports no key, and the 500 ms wait happens once exactly when the picker also closes |
| Gemini.KeyPickerOnlyWithoutKey | services/gemini.ts:5-16 | over the whole video call: the picker opens once iff the studio host reports no key, and the 500 ms wait happens once iff it then closes, else never |
| Gemini.StalledPickerSubmitsNothing | services/gemini.ts:9-14 | a picker that never closes leaves the call pending with only the key check and the picker in the trace |
| Gemini.PollWaitsAndRefetches | services/gemini.ts:72-81 | with every refetch answered, the refetches equal the index of the first done flag and the 5000 ms waits are one more; an already-done job has zero refetches; with no done flag the call is pending |
| Gemini.PendingMeansNoDownload | services/gemini.ts:76-92 | a video call that never settles has made no download, because the fetch follows the loop's exit on a done status |
| Gemini.MissingLinkFailsBeforeDownload | services/gemini.ts:84-88 | a done job with no usable link fails with the fixed message and no download is in the trace |
| Gemini.NonOkDownloadReportsStatus | services/gemini.ts:92-96 | a non-OK download fails with "Failed to download video: " followed by the status text, after downloading from the keyed link |
| Gemini.AnimateSuccessMeansDownloaded | services/gemini.ts:52-99 | success implies the gate completed, exactly one submission, a finished job with a usable link, a last effect that downloads from that link with the key appended and gets an OK answer, and a result that is the local blob URL |
| Gemini.OkDownloadSucceeds | services/gemini.ts:90-99 | a finished job with a usable link whose keyed download answers OK succeeds with the local blob URL, the download being the last effect |
| Gemini.RejectedDownloadPassesError | services/gemini.ts:92 | a rejected download fails the call with the rejection's message |
| Gemini.RejectedRefetchPassesError | services/gemini.ts:76-80 | a rejected status refetch fails the call with its error and nothing is downloaded |
| Workflow.StartGenerateLogo | App.tsx:21-22 | starting image generation clears the error and enters `GENERATING_IMAGE` with content untouched |
| Workflow.SettleGenerateLogo | App.tsx:24-34 | success stores the bytes and the prompt, keeps the video fields and the error and ends in `REVIEW_IMAGE`; failure keeps the content, ends in `IDLE` and shows the message, or the image default when it is empty |
| Workflow.HandleGenerateLogo | App.tsx:20-36 | success stores the bytes and the prompt, keeps the video fields and ends in `REVIEW_IMAGE` with no error; failure ends in `IDLE` with content unchanged and a non-empty error (the message, or the default when empty); a pending call stays in `GENERATING_IMAGE` |
| Workflow.StartAnimateLogo | App.tsx:40-43 | without an image nothing changes; with one the error is cleared and the state is `GENERATING_VIDEO` |
| Workflow.SettleAnimateLogo | App.tsx:44-56 | settling never touches the image or its prompt; success stores the video URL and prompt and ends in `REVIEW_VIDEO`; failure keeps all content, ends in `REVIEW_IMAGE` and shows the message, or the API-key default when it is empty |
| Workflow.HandleAnimateLogo | App.tsx:39-57 | without an image the session is unchanged; success stores the video URL and prompt, keeps the image and ends in `REVIEW_VIDEO`; failure ends in `REVIEW_IMAGE` with all content unchanged and a non-empty error (the message, or the API-key default) |
| Workflow.Reset | App.tsx:60-69 | from any session: `IDLE`, no image, no video, empty prompts, no error |
| Workflow.ResetIsCanonicalAndIdempotent | App.tsx:60-69 | reset gives one canonical session from any two sessions, and resetting twice is resetting once |
| Workflow.StepPreservesWellFormed | App.tsx:20-69 | every handler call keeps the screens consistent with the content and a video only alongside an image |
| Workflow.PhasesPreserveWellFormed | App.tsx:21-55 | each start step and each settle step keeps that consistency, the animation settle as long as its session is still generating the video |
| Workflow.RunPreservesWellFormed | App.tsx:20-69 | any sequence of handler calls, with any outcomes, keeps that consistency |
| Workflow.VideoOnlyWithImage | App.tsx:40-50 | from the initial session, after any handler calls, a video URL exists only when an image exists |
| Workflow.ImageKeptUntilReset | App.tsx:25-67 | once an image is present, handler calls other than reset never remove it |
| Workflow.FailedAnimationKeepsImage | App.tsx:52-55 | a failed animation leaves the content, image included, as it was, and returns to `REVIEW_IMAGE` when there was an image |
| Workflow.GenerateLogoWith | App.tsx:24-34 | with the real client, the image review screen is reached iff the client succeeded; then exactly the client's (non-empty) bytes and the user's prompt are stored, the video fields are kept and the error is cleared; otherwise `IDLE` with the content kept and the client's message, or the image default when it is empty |
| Workflow.AnimateLogoWith | App.tsx:38-57 | with the real client and an image, the video review screen is reached iff the client succeeded, and then holds the blob URL of the download and the user's motion prompt with no error; a failed client call returns to `REVIEW_IMAGE` with the content kept and its message, or the video default when it is empty; a call that never settles stays on `GENERATING_VIDEO`; without an image nothing changes; the image is never changed |
| Workflow.LogoScenario | App.tsx:24-30 | "circuit-board lion" in "Neon Cyberpunk" answered with bytes ends on `REVIEW_IMAGE` with that prompt and those bytes |
| Workflow.EmptyMotionPromptScenario | services/gemini.ts:58-69 | an empty motion prompt with 9:16 submits the default motion prompt at 9:16, while the stored video prompt stays empty |
| Workflow.DownloadFailureScenario | App.tsx:52-55 | a non-OK download ends on `REVIEW_IMAGE` with error "Failed to download video: " plus the status text and the content untouched |
| Workflow.StalledPickerScenario | services/gemini.ts:9-14 | a picker that never closes leaves the session generating with no error, and no video job is submitted |
| Ui.Offered | App.tsx:71-216 | the controls each screen enables: the header reset always; on `IDLE` the logo form's submit for a non-blank prompt and a preset style (LogoCreator.tsx:85); on `GENERATING_IMAGE` nothing else; on `GENERATING_VIDEO` only the animation form's back button, its submit being disabled (VideoAnimator.tsx:107); on `REVIEW_IMAGE` with an image, as written only the Placeholder, as intended the animation form's submit for a non-blank prompt and its back button (VideoAnimator.tsx:42); on `REVIEW_VIDEO` with a video, Start Over |
| Ui.Apply | App.tsx:71-216 | the submits call the generate and animate handlers; the Placeholder only switches to `GENERATING_VIDEO`; back does nothing while generating (the no-op `onBack`) and resets otherwise; Start Over and the header reset return to the initial session; no control but a submit changes the content except by clearing it |
| Ui.SingleFlight | App.tsx:72-142 | no screen offers a submit control while a generation call is in flight |
| Ui.InteractPreservesWellFormed | App.tsx:107-108 | clicks, including the placeholder jump to `GENERATING_VIDEO`, keep the session consistent |
| Ui.AsWrittenNeverAnimates | App.tsx:82-120 | with the screens as written, no sequence of clicks from the start produces a video or shows `REVIEW_VIDEO` |
| Ui.AsWrittenGeneratingVideoIsStuck | App.tsx:134-142 | as written, on `GENERATING_VIDEO` every control other than the header reset leaves the session unchanged, and the header reset returns to the initial session |
| Ui.IntendedReachesReviewVideo | App.tsx:125-132 | with the animation form on the image review screen, generate-then-animate reaches `REVIEW_VIDEO` with both prompts and both results stored |

## Findings

| source | as written | input that shows it | evidently intended | confidence | as-written member | corrected member |
|---|---|---|---|---|---|---|
| App.tsx:82-132 | the `REVIEW_IMAGE` case returns a view whose only control is a "Placeholder" button that sets `GENERATING_VIDEO`; the following `return` of the animation form is unreachable, so `handleAnimateLogo` is never called and `GENERATING_VIDEO` can only be left by the header reset | any sequence of clicks from the initial screen, e.g. generate a logo, then click "Placeholder" | the image review screen shows the animation form (`VideoAnimator` with `onAnimate` and `onBack={reset}`), as the comment before the dead `return` says | high (not executed) | Ui.AsWrittenNeverAnimates | Ui.IntendedReachesReviewVideo |

## Left out

- Rendering, styling, icons and form state in `App.tsx`, `components/Button.tsx`, `components/LogoCreator.tsx` and `components/VideoAnimator.tsx`. These are presentation only. The prompt-guard conditions, the style presets and which screen shows which control are kept in `Ui.Offered`.
- The `GoogleGenAI` SDK, `fetch`, `Response.blob()`, `URL.createObjectURL`, `window.aistudio` and `setTimeout`. They are foreign I/O. They become parameters (`generateImages`, `VideoEnv`, `Host`, `blobUrl`) and `Sleep` effects.
- `hasSelectedApiKey` and `openSelectKey` rejecting, and `blob()` failing. The host calls are assumed to resolve (or, for the picker, never return). The blob read is assumed to succeed.
- The model names and the API key are plain constants or parameters. The key read from the environment is not modelled beyond being appended to the download link.
- Gemini.PollLoop: the source loop has no bound. The model runs it over a finite sequence of refetch replies and reports "still running" when they are exhausted, so a loop that never ends appears as a `Pending` call.
- Races between an in-flight call and the header reset, and the `content.imageBase64` captured by `useCallback`. These are asynchronous interleavings. Handlers are modelled as atomic. `Workflow.PhasesPreserveWellFormed` states the animation settle only for a session that is still generating. A settle after an intervening reset would store a video without an image.
- `generateImages`, `generateVideos`, the status refetch and `fetch` are total function parameters, so in the model each of these calls answers (with a result or a rejection). The source has no time-out: an `await` at services/gemini.ts:28, :58, :79 or :92 that never settles leaves the app on `GENERATING_IMAGE` or `GENERATING_VIDEO`. Such a hang is modelled only as the handlers' `Pending` outcome (`Workflow.HandleGenerateLogo`, `Workflow.HandleAnimateLogo`) and, for the poll loop, as running out of refetch replies. `Workflow.GenerateLogoWith` therefore always settles.
- Console logging.
- The contents and base64 encoding of images and videos. They are opaque strings.

=== FILE: gemini.dfy ===
/** The generation client: request shaping for the image and video APIs,
    validation of what they return, the credential gate and the poll loop
    that waits for a long-running video job. The SDK, `fetch`, the host's
    key picker and the timers are parameters; what the client does with
    them is recorded as a trace of effects. */
module Gemini {
  import opened Wrappers
  import opened Types

  // ---------------------------------------------------------------------
  // Constants
  // ---------------------------------------------------------------------

  const ImageModel := "imagen-4.0-generate-001"
  const VideoModel := "veo-3.1-fast-generate-preview"

  const PromptPrefix := "Design a professional, high-quality logo. Concept: "
  const PromptMiddle := ". Style: "
  const PromptSuffix := ". Ensure a clean background, suitable for vectorization logic (though this is raster). High contrast, distinct shapes."

  const NoImageMessage := "No image data returned from Gemini."
  const DefaultMotionPrompt := "Cinematic camera movement, bringing the logo to life"
  const NoUriMessage := "Video generation completed but no URI was returned."
  const DownloadFailedPrefix := "Failed to download video: "

  /** Milliseconds waited after the key picker closes. */
  const KeyPickerSettleMs: nat := 500
  /** Milliseconds waited once after submitting the video job. */
  const InitialWaitMs: nat := 5000
  /** Milliseconds waited before every status refetch. */
  const PollIntervalMs: nat := 5000

  // ---------------------------------------------------------------------
  // Effects the client performs, in order
  // ---------------------------------------------------------------------

  datatype Effect =
    | CheckKey                          // hasSelectedApiKey()
    | OpenKeyPicker                     // openSelectKey()
    | Sleep(ms: nat)                    // a setTimeout promise
    | SubmitVideo(request: VideoRequest)
    | RefetchOperation                  // getVideosOperation(...)
    | Download(url: string)             // fetch(...)

  /** The effects that belong to the credential gate. */
  predicate IsGateEffect(e: Effect) {
    e == CheckKey || e == OpenKeyPicker || e == Sleep(KeyPickerSettleMs)
  }

  predicate HasDownload(trace: seq<Effect>) {
    exists i :: 0 <= i < |trace| && trace[i].Download?
  }

  /** How often `e` occurs in `trace`. */
  function Count(trace: seq<Effect>, e: Effect): nat {
    if |trace| == 0 then 0
    else (if trace[0] == e then 1 else 0) + Count(trace[1..], e)
  }

  lemma {:induction false} CountAppend(a: seq<Effect>, b: seq<Effect>, e: Effect)
    ensures Count(a + b, e) == Count(a, e) + Count(b, e)
  {
    if |a| == 0 {
      assert a + b == b;
    } else {
      assert (a + b)[1..] == a[1..] + b;
      CountAppend(a[1..], b, e);
    }
  }

  lemma {:induction false} CountAbsent(trace: seq<Effect>, e: Effect)
    requires forall i :: 0 <= i < |trace| ==> trace[i] != e
    ensures Count(trace, e) == 0
  {
    if |trace| > 0 {
      CountAbsent(trace[1..], e);
    }
  }

  // ---------------------------------------------------------------------
  // Image generation
  // ---------------------------------------------------------------------

  /** The prompt sent to the image model: the fixed template with the user's
      concept and the style inserted verbatim, concept first. */
  function EnhancedPrompt(concept: string, style: string): (r: string)
    ensures |r| == |PromptPrefix| + |concept| + |PromptMiddle| + |style| + |PromptSuffix|
    ensures r[..|PromptPrefix|] == PromptPrefix
    ensures r[|PromptPrefix|..|PromptPrefix| + |concept|] == concept
    ensures r[|PromptPrefix| + |concept|..|PromptPrefix| + |concept| + |PromptMiddle|] == PromptMiddle
    ensures r[|PromptPrefix| + |concept| + |PromptMiddle|..|r| - |PromptSuffix|] == style
    ensures r[|r| - |PromptSuffix|..] == PromptSuffix
  {
    PromptPrefix + concept + PromptMiddle + style + PromptSuffix
  }

  /** For a given style, the enriched prompt determines the concept. */
  lemma EnhancedPromptKeepsConcept(c1: string, c2: string, style: string)
    requires EnhancedPrompt(c1, style) == EnhancedPrompt(c2, style)
    ensures c1 == c2
  {
  }

  datatype ImageRequest = ImageRequest(
    model: string,
    prompt: string,
    numberOfImages: nat,
    outputMimeType: string,
    aspectRatio: AspectRatio)

  /** The request for one square JPEG logo; only the prompt depends on the
      caller's input. */
  function BuildImageRequest(concept: string, style: string): (r: ImageRequest)
    ensures r.model == ImageModel && r.prompt == EnhancedPrompt(concept, style)
    ensures r.numberOfImages == 1 && r.outputMimeType == "image/jpeg"
    ensures r.aspectRatio == Ratio1x1 && r.aspectRatio.Label() == "1:1"
  {
    ImageRequest(ImageModel, EnhancedPrompt(concept, style), 1, "image/jpeg", Ratio1x1)
  }

  /** Every image request carries the same configuration. */
  lemma ImageConfigIsFixed(c1: string, s1: string, c2: string, s2: string)
    ensures BuildImageRequest(c1, s1).(prompt := "") == BuildImageRequest(c2, s2).(prompt := "")
  {
  }

  datatype ImageData = ImageData(imageBytes: Option<string>)
  datatype GeneratedImage = GeneratedImage(image: Option<ImageData>)
  datatype ImageResponse = ImageResponse(generatedImages: Option<seq<GeneratedImage>>)

  /** `response.generatedImages?.[0]?.image?.imageBytes` */
  function FirstImageBytes(response: ImageResponse): Option<string> {
    match response.generatedImages
    case None => None
    case Some(images) =>
      if |images| == 0 then None
      else
        match images[0].image
        case None => None
        case Some(data) => data.imageBytes
  }

  /** Ask the image model (`generateImages`, the SDK call) for one logo and
      accept only non-empty bytes of the first image. A rejected SDK call is
      passed on unchanged. */
  function GenerateLogoImage(concept: string, style: string,
                             generateImages: ImageRequest -> Result<ImageResponse>): (r: Result<string>)
    ensures var reply := generateImages(BuildImageRequest(concept, style));
      && (r.Success? <==> reply.Success? && Truthy(FirstImageBytes(reply.value)))
      && (r.Success? ==> r.value != "" && FirstImageBytes(reply.value) == Some(r.value))
      && (reply.Failure? ==> r == Failure(reply.error))
      && (reply.Success? && r.Failure? ==> r.error == NoImageMessage)
  {
    match generateImages(BuildImageRequest(concept, style))
    case Failure(message) => Failure(message)
    case Success(response) =>
      var bytes := FirstImageBytes(response);
      if !Truthy(bytes) then Failure(NoImageMessage) else Success(bytes.value)
  }

  // ---------------------------------------------------------------------
  // Video request
  // ---------------------------------------------------------------------

  datatype VideoRequest = VideoRequest(
    model: string,
    prompt: string,
    imageBytes: string,
    imageMimeType: string,
    numberOfVideos: nat,
    resolution: VideoResolution,
    aspectRatio: VideoAspectRatio)

  /** `prompt || DefaultMotionPrompt`: the motion prompt is never empty. */
  function MotionPrompt(prompt: string): (r: string)
    ensures r != ""
    ensures prompt != "" ==> r == prompt
    ensures prompt == "" ==> r == DefaultMotionPrompt
  {
    if prompt == "" then DefaultMotionPrompt else prompt
  }

  /** One 720p video from the given JPEG image; an omitted aspect ratio
      (the parameter default) is 16:9. */
  function BuildVideoRequest(imageBase64: string, prompt: string,
                             aspectRatio: Option<VideoAspectRatio>): (r: VideoRequest)
    ensures r.model == VideoModel && r.prompt == MotionPrompt(prompt)
    ensures r.imageBytes == imageBase64 && r.imageMimeType == "image/jpeg"
    ensures r.numberOfVideos == 1 && r.resolution == Res720p
    ensures aspectRatio.None? ==> r.aspectRatio == Ratio16x9
    ensures aspectRatio.Some? ==> r.aspectRatio == aspectRatio.value
  {
    var ratio := match aspectRatio case None => Ratio16x9 case Some(a) => a;
    VideoRequest(VideoModel, MotionPrompt(prompt), imageBase64, "image/jpeg", 1, Res720p, ratio)
  }

  // ---------------------------------------------------------------------
  // Credential gate
  // ---------------------------------------------------------------------

  /** The host environment: a plain page, or the studio host that offers a
      key picker. `pickerSettles` is false when the picker never returns. */
  datatype Host = Standalone | AiStudio(hasKey: bool, pickerSettles: bool)

  datatype GateRun = GateRun(trace: seq<Effect>, completes: bool)

  /** Ask the host whether a key is selected; if not, open the picker and,
      once it closes, wait 500 ms. */
  function KeyGate(host: Host): (g: GateRun)
    ensures CheckKey in g.trace <==> host.AiStudio?
    ensures OpenKeyPicker in g.trace <==> host.AiStudio? && !host.hasKey
    ensures Sleep(KeyPickerSettleMs) in g.trace <==> host.AiStudio? && !host.hasKey && g.completes
    ensures !g.completes <==> host.AiStudio? && !host.hasKey && !host.pickerSettles
    ensures forall i :: 0 <= i < |g.trace| ==> IsGateEffect(g.trace[i])
    ensures forall i, j :: 0 <= i < j < |g.trace| ==> g.trace[i] != g.trace[j]
    ensures |g.trace| > 0 ==> g.trace[0] == CheckKey
    ensures OpenKeyPicker in g.trace ==> g.trace[1] == OpenKeyPicker
    ensures Sleep(KeyPickerSettleMs) in g.trace ==> g.trace[2] == Sleep(KeyPickerSettleMs)
  {
    match host
    case Standalone => GateRun([], true)
    case AiStudio(hasKey, pickerSettles) =>
      if hasKey then GateRun([CheckKey], true)
      else if !pickerSettles then GateRun([CheckKey, OpenKeyPicker], false)
      else GateRun([CheckKey, OpenKeyPicker, Sleep(KeyPickerSettleMs)], true)
  }

  // ---------------------------------------------------------------------
  // Poll loop
  // ---------------------------------------------------------------------

  datatype VideoFile = VideoFile(uri: Option<string>)
  datatype GeneratedVideo = GeneratedVideo(video: Option<VideoFile>)
  datatype VideoResponse = VideoResponse(generatedVideos: Option<seq<GeneratedVideo>>)
  datatype Operation = Operation(done: bool, response: Option<VideoResponse>)

  /** The operation statuses the loop can observe in order: the submitted
      operation, then the reply to each refetch. */
  function Observations(submitted: Operation, refetched: seq<Result<Operation>>): seq<Result<Operation>> {
    [Success(submitted)] + refetched
  }

  datatype PollEnd = Completed(operation: Operation) | Failed(message: string) | StillRunning

  /** `rounds` counts loop iterations: each is one interval wait and one
      refetch. */
  datatype PollRun = PollRun(rounds: nat, end: PollEnd)

  /** `while (!operation.done) { wait; operation = refetch }`, run over the
      given refetch replies. A rejected refetch ends the loop with its error;
      running out of replies before a done status means the loop is still
      running. */
  function PollLoop(current: Operation, refetched: seq<Result<Operation>>): (r: PollRun)
    ensures r.rounds <= |refetched|
    ensures forall j :: 0 <= j < r.rounds ==>
      Observations(current, refetched)[j].Success? && !Observations(current, refetched)[j].value.done
    ensures var last := Observations(current, refetched)[r.rounds];
      && (last.Failure? ==> r.end == Failed(last.error))
      && (last.Success? && last.value.done ==> r.end == Completed(last.value))
      && (last.Success? && !last.value.done ==> r.end == StillRunning && r.rounds == |refetched|)
    decreases |refetched|
  {
    if current.done then PollRun(0, Completed(current))
    else if |refetched| == 0 then PollRun(0, StillRunning)
    else
      match refetched[0]
      case Failure(message) => PollRun(1, Failed(message))
      case Success(next) =>
        var rest := PollLoop(next, refetched[1..]);
        assert forall j :: 1 <= j <= |refetched| ==>
          Observations(current, refetched)[j] == Observations(next, refetched[1..])[j - 1];
        PollRun(rest.rounds + 1, rest.end)
  }

  /** The effects of `n` loop iterations. */
  function PollRounds(n: nat): (t: seq<Effect>)
    ensures |t| == 2 * n
    ensures forall i :: 0 <= i < |t| ==> t[i] == if i % 2 == 0 then Sleep(PollIntervalMs) else RefetchOperation
  {
    if n == 0 then [] else [Sleep(PollIntervalMs), RefetchOperation] + PollRounds(n - 1)
  }

  /** `n` iterations wait `n` times and refetch `n` times, and do nothing else. */
  lemma {:induction false} PollRoundsCounts(n: nat)
    ensures Count(PollRounds(n), Sleep(PollIntervalMs)) == n
    ensures Count(PollRounds(n), RefetchOperation) == n
  {
    if n > 0 {
      PollRoundsCounts(n - 1);
      var t := PollRounds(n);
      assert t[1..][1..] == PollRounds(n - 1);
    }
  }

  /** Index of the first true flag, if any: the reference for how many
      refetches the loop makes. */
  function FirstTrue(flags: seq<bool>): (r: Option<nat>)
    ensures r.Some? ==> r.value < |flags| && flags[r.value]
    ensures r.Some? ==> forall j :: 0 <= j < r.value ==> !flags[j]
    ensures r.None? ==> forall j :: 0 <= j < |flags| ==> !flags[j]
  {
    if |flags| == 0 then None
    else if flags[0] then Some(0)
    else
      match FirstTrue(flags[1..])
      case None => None
      case Some(k) => Some(k + 1)
  }

  /** The `done` flags the loop sees: the submitted operation's, then one per
      refetch (a rejected refetch counts as not done). */
  function DoneFlags(submitted: Operation, refetched: seq<Result<Operation>>): (flags: seq<bool>)
    ensures |flags| == |refetched| + 1
  {
    [submitted.done] + seq(|refetched|, i requires 0 <= i < |refetched| => refetched[i].Success? && refetched[i].value.done)
  }

  /** When every refetch succeeds, the loop stops at the first done flag:
      it completes exactly when some flag is set, after as many iterations as
      there are flags before it; otherwise it consumes every reply. */
  lemma PollStopsAtFirstDone(submitted: Operation, refetched: seq<Result<Operation>>)
    requires forall i :: 0 <= i < |refetched| ==> refetched[i].Success?
    ensures var r := PollLoop(submitted, refetched);
      var first := FirstTrue(DoneFlags(submitted, refetched));
      && (r.end.Completed? <==> first.Some?)
      && (first.Some? ==> r.rounds == first.value)
      && (first.None? ==> r.end == StillRunning && r.rounds == |refetched|)
      && !r.end.Failed?
  {
    var r := PollLoop(submitted, refetched);
    var obs := Observations(submitted, refetched);
    var flags := DoneFlags(submitted, refetched);
    assert forall j :: 0 <= j < |obs| ==> obs[j].Success? && flags[j] == obs[j].value.done;
  }

  // ---------------------------------------------------------------------
  // Video generation
  // ---------------------------------------------------------------------

  datatype HttpResponse = HttpResponse(ok: bool, statusText: string)

  /** The host, the SDK, the refetch replies and `fetch` as one environment.
      `blobUrl` is what `URL.createObjectURL` hands back for the download. */
  datatype VideoEnv = VideoEnv(
    host: Host,
    generateVideos: VideoRequest -> Result<Operation>,
    refetched: seq<Result<Operation>>,
    fetch: string -> Result<HttpResponse>,
    apiKey: string,
    blobUrl: string)

  datatype VideoRun = VideoRun(trace: seq<Effect>, outcome: Call<string>)

  /** `operation.response?.generatedVideos?.[0]?.video?.uri` */
  function DownloadLink(operation: Operation): Option<string> {
    match operation.response
    case None => None
    case Some(response) =>
      match response.generatedVideos
      case None => None
      case Some(videos) =>
        if |videos| == 0 then None
        else
          match videos[0].video
          case None => None
          case Some(file) => file.uri
  }

  /** The download link with the API key appended as a query parameter. */
  function DownloadUrl(link: string, apiKey: string): string {
    link + "&key=" + apiKey
  }

  /** Fetch the finished video from its link; a missing or empty link fails
      before any download. */
  function FetchVideo(finished: Operation, env: VideoEnv): (r: VideoRun)
    ensures |r.trace| <= 1
    ensures r.outcome.Settled?
    ensures |r.trace| == 1 <==> Truthy(DownloadLink(finished))
    ensures |r.trace| == 1 ==> r.trace[0] == Download(DownloadUrl(DownloadLink(finished).value, env.apiKey))
    ensures |r.trace| == 0 ==> r.outcome == Settled(Failure(NoUriMessage))
    ensures |r.trace| == 1 ==>
      match env.fetch(r.trace[0].url)
      case Failure(message) => r.outcome == Settled(Failure(message))
      case Success(response) =>
        && (!response.ok ==> r.outcome == Settled(Failure(DownloadFailedPrefix + response.statusText)))
        && (response.ok ==> r.outcome == Settled(Success(env.blobUrl)))
  {
    var link := DownloadLink(finished);
    if !Truthy(link) then VideoRun([], Settled(Failure(NoUriMessage)))
    else
      var url := DownloadUrl(link.value, env.apiKey);
      match env.fetch(url)
      case Failure(message) => VideoRun([Download(url)], Settled(Failure(message)))
      case Success(response) =>
        if !response.ok then VideoRun([Download(url)], Settled(Failure(DownloadFailedPrefix + response.statusText)))
        else VideoRun([Download(url)], Settled(Success(env.blobUrl)))
  }

  /** Everything after a successful submission: the initial wait, the poll
      loop and, once the job is done, the download. */
  function AwaitVideo(submitted: Operation, env: VideoEnv): (r: VideoRun)
    ensures |r.trace| >= 1 + 2 * PollLoop(submitted, env.refetched).rounds
    ensures var poll := PollLoop(submitted, env.refetched);
      r.trace[..1 + 2 * poll.rounds] == [Sleep(InitialWaitMs)] + PollRounds(poll.rounds)
    ensures forall i :: 0 <= i < |r.trace| ==> !IsGateEffect(r.trace[i]) && !r.trace[i].SubmitVideo?
    ensures var poll := PollLoop(submitted, env.refetched);
      && |r.trace| <= 2 + 2 * poll.rounds
      && (|r.trace| == 2 + 2 * poll.rounds ==> r.trace[|r.trace| - 1].Download?)
      && (poll.end == StillRunning ==> r.outcome == Pending)
      && (poll.end.Failed? ==> r.outcome == Settled(Failure(poll.end.message)))
      && (poll.end.Completed? ==> r.outcome == FetchVideo(poll.end.operation, env).outcome)
      && (poll.end.Completed? ==> r.trace[1 + 2 * poll.rounds..] == FetchVideo(poll.end.operation, env).trace)
      && (!poll.end.Completed? ==> |r.trace| == 1 + 2 * poll.rounds)
  {
    var poll := PollLoop(submitted, env.refetched);
    var waits := [Sleep(InitialWaitMs)] + PollRounds(poll.rounds);
    match poll.end
    case StillRunning => VideoRun(waits, Pending)
    case Failed(message) => VideoRun(waits, Settled(Failure(message)))
    case Completed(finished) =>
      var fetched := FetchVideo(finished, env);
      VideoRun(waits + fetched.trace, fetched.outcome)
  }

  /** After submission the client waits once more than it refetches. */
  lemma AwaitVideoCounts(submitted: Operation, env: VideoEnv)
    ensures var rounds := PollLoop(submitted, env.refetched).rounds;
      var t := AwaitVideo(submitted, env).trace;
      && Count(t, RefetchOperation) == rounds
      && Count(t, Sleep(PollIntervalMs)) == rounds + 1
  {
    var poll := PollLoop(submitted, env.refetched);
    var t := AwaitVideo(submitted, env).trace;
    var rounds := PollRounds(poll.rounds);
    PollRoundsCounts(poll.rounds);
    var tail := t[1 + |rounds|..];
    assert t == [Sleep(InitialWaitMs)] + rounds + tail;
    assert |tail| <= 1 && (|tail| == 1 ==> tail[0].Download?);
    CountAbsent(tail, RefetchOperation);
    CountAbsent(tail, Sleep(PollIntervalMs));
    CountAppend([Sleep(InitialWaitMs)] + rounds, tail, RefetchOperation);
    CountAppend([Sleep(InitialWaitMs)] + rounds, tail, Sleep(PollIntervalMs));
    CountAppend([Sleep(InitialWaitMs)], rounds, RefetchOperation);
    CountAppend([Sleep(InitialWaitMs)], rounds, Sleep(PollIntervalMs));
  }

  /** Pass the credential gate, submit the job, then await and fetch it. */
  function AnimateLogoVideo(imageBase64: string, prompt: string,
                            aspectRatio: Option<VideoAspectRatio>, env: VideoEnv): (r: VideoRun)
    ensures var g := KeyGate(env.host);
      && g.trace <= r.trace
      && (!g.completes ==> r == VideoRun(g.trace, Pending))
      && (g.completes ==> |r.trace| > |g.trace|
                          && r.trace[|g.trace|] == SubmitVideo(BuildVideoRequest(imageBase64, prompt, aspectRatio)))
      && (forall i :: |g.trace| < i < |r.trace| ==> !IsGateEffect(r.trace[i]) && !r.trace[i].SubmitVideo?)
      && (g.completes ==> var request := BuildVideoRequest(imageBase64, prompt, aspectRatio);
            match env.generateVideos(request)
            case Failure(m) => r == VideoRun(g.trace + [SubmitVideo(request)], Settled(Failure(m)))
            case Success(operation) =>
              var rest := AwaitVideo(operation, env);
              r == VideoRun(g.trace + [SubmitVideo(request)] + rest.trace, rest.outcome))
  {
    var gate := KeyGate(env.host);
    if !gate.completes then VideoRun(gate.trace, Pending)
    else
      var request := BuildVideoRequest(imageBase64, prompt, aspectRatio);
      var submitted := gate.trace + [SubmitVideo(request)];
      match env.generateVideos(request)
      case Failure(message) => VideoRun(submitted, Settled(Failure(message)))
      case Success(operation) =>
        var rest := AwaitVideo(operation, env);
        VideoRun(submitted + rest.trace, rest.outcome)
  }

  /** Counting the gate's effects in a trace that starts with the gate's
      trace and has no gate effect after it. */
  lemma GateEffectCounts(host: Host, trace: seq<Effect>)
    requires KeyGate(host).trace <= trace
    requires forall i :: |KeyGate(host).trace| <= i < |trace| ==> !IsGateEffect(trace[i])
    ensures Count(trace, OpenKeyPicker) == if host.AiStudio? && !host.hasKey then 1 else 0
    ensures Count(trace, Sleep(KeyPickerSettleMs)) == if host == AiStudio(false, true) then 1 else 0
  {
    var g := KeyGate(host).trace;
    var rest := trace[|g|..];
    assert trace == g + rest;
    CountAppend(g, rest, OpenKeyPicker);
    CountAppend(g, rest, Sleep(KeyPickerSettleMs));
    CountAbsent(rest, OpenKeyPicker);
    CountAbsent(rest, Sleep(KeyPickerSettleMs));
  }

  /** The key picker opens only when the studio host reports no key, and the
      500 ms wait happens once, only when the picker has closed. */
  lemma KeyPickerOnlyWithoutKey(imageBase64: string, prompt: string,
                                aspectRatio: Option<VideoAspectRatio>, env: VideoEnv)
    ensures var r := AnimateLogoVideo(imageBase64, prompt, aspectRatio, env);
      && Count(r.trace, OpenKeyPicker) == (if env.host.AiStudio? && !env.host.hasKey then 1 else 0)
      && Count(r.trace, Sleep(KeyPickerSettleMs)) == (if env.host == AiStudio(false, true) then 1 else 0)
  {
    var r := AnimateLogoVideo(imageBase64, prompt, aspectRatio, env);
    GateEffectCounts(env.host, r.trace);
  }

  /** A picker that never closes stalls the client before anything is
      submitted or downloaded. */
  lemma StalledPickerSubmitsNothing(imageBase64: string, prompt: string,
                                    aspectRatio: Option<VideoAspectRatio>, env: VideoEnv)
    requires env.host == AiStudio(false, false)
    ensures var r := AnimateLogoVideo(imageBase64, prompt, aspectRatio, env);
      && r.outcome == Pending
      && r.trace == [CheckKey, OpenKeyPicker]
  {
  }

  /** With every refetch answered, the client waits once after submitting
      and then once more per refetch, and refetches once per observed
      not-done status before the first done one (none if the submitted
      operation is already done). */
  lemma PollWaitsAndRefetches(imageBase64: string, prompt: string,
                              aspectRatio: Option<VideoAspectRatio>, env: VideoEnv, submitted: Operation)
    requires KeyGate(env.host).completes
    requires env.generateVideos(BuildVideoRequest(imageBase64, prompt, aspectRatio)) == Success(submitted)
    requires forall i :: 0 <= i < |env.refetched| ==> env.refetched[i].Success?
    ensures var r := AnimateLogoVideo(imageBase64, prompt, aspectRatio, env);
      var first := FirstTrue(DoneFlags(submitted, env.refetched));
      && (first.Some? ==> Count(r.trace, RefetchOperation) == first.value
                          && Count(r.trace, Sleep(PollIntervalMs)) == first.value + 1)
      && (first.None? ==> r.outcome == Pending
                          && Count(r.trace, RefetchOperation) == |env.refetched|
                          && Count(r.trace, Sleep(PollIntervalMs)) == |env.refetched| + 1)
      && (submitted.done ==> Count(r.trace, RefetchOperation) == 0)
  {
    var g := KeyGate(env.host);
    var request := BuildVideoRequest(imageBase64, prompt, aspectRatio);
    var r := AnimateLogoVideo(imageBase64, prompt, aspectRatio, env);
    var rest := AwaitVideo(submitted, env);
    PollStopsAtFirstDone(submitted, env.refetched);
    AwaitVideoCounts(submitted, env);
    assert r.trace == g.trace + [SubmitVideo(request)] + rest.trace;
    CountAfterSubmission(g.trace + [SubmitVideo(request)], rest.trace, RefetchOperation);
    CountAfterSubmission(g.trace + [SubmitVideo(request)], rest.trace, Sleep(PollIntervalMs));
  }

  /** The gate and the submission perform no refetch and no interval wait,
      so those are counted in what follows them. */
  lemma CountAfterSubmission(prefix: seq<Effect>, rest: seq<Effect>, e: Effect)
    requires e == RefetchOperation || e == Sleep(PollIntervalMs)
    requires forall i :: 0 <= i < |prefix| ==> IsGateEffect(prefix[i]) || prefix[i].SubmitVideo?
    ensures Count(prefix + rest, e) == Count(rest, e)
  {
    CountAppend(prefix, rest, e);
    CountAbsent(prefix, e);
  }

  /** A call that never settles has downloaded nothing: the download
      happens only after the job reports done. */
  lemma PendingMeansNoDownload(imageBase64: string, prompt: string,
                               aspectRatio: Option<VideoAspectRatio>, env: VideoEnv)
    ensures var r := AnimateLogoVideo(imageBase64, prompt, aspectRatio, env);
      r.outcome.Pending? ==> !HasDownload(r.trace)
  {
  }

  /** A completed job without a usable link fails with the fixed message
      and nothing is downloaded. */
  lemma MissingLinkFailsBeforeDownload(imageBase64: string, prompt: string,
                                       aspectRatio: Option<VideoAspectRatio>, env: VideoEnv,
                                       submitted: Operation, finished: Operation)
    requires KeyGate(env.host).completes
    requires env.generateVideos(BuildVideoRequest(imageBase64, prompt, aspectRatio)) == Success(submitted)
    requires PollLoop(submitted, env.refetched).end == Completed(finished)
    requires !Truthy(DownloadLink(finished))
    ensures var r := AnimateLogoVideo(imageBase64, prompt, aspectRatio, env);
      && r.outcome == Settled(Failure(NoUriMessage))
      && !HasDownload(r.trace)
  {
  }

  /** A download answered with a non-OK status fails with the status text. */
  lemma NonOkDownloadReportsStatus(imageBase64: string, prompt: string,
                                   aspectRatio: Option<VideoAspectRatio>, env: VideoEnv,
                                   submitted: Operation, finished: Operation, statusText: string)
    requires KeyGate(env.host).completes
    requires env.generateVideos(BuildVideoRequest(imageBase64, prompt, aspectRatio)) == Success(submitted)
    requires PollLoop(submitted, env.refetched).end == Completed(finished)
    requires Truthy(DownloadLink(finished))
    requires env.fetch(DownloadUrl(DownloadLink(finished).value, env.apiKey)) == Success(HttpResponse(false, statusText))
    ensures var r := AnimateLogoVideo(imageBase64, prompt, aspectRatio, env);
      && r.outcome == Settled(Failure(DownloadFailedPrefix + statusText))
      && r.trace[|r.trace| - 1] == Download(DownloadUrl(DownloadLink(finished).value, env.apiKey))
  {
  }

  /** A download answered OK succeeds with the local blob URL. */
  lemma OkDownloadSucceeds(imageBase64: string, prompt: string,
                           aspectRatio: Option<VideoAspectRatio>, env: VideoEnv,
                           submitted: Operation, finished: Operation, statusText: string)
    requires KeyGate(env.host).completes
    requires env.generateVideos(BuildVideoRequest(imageBase64, prompt, aspectRatio)) == Success(submitted)
    requires PollLoop(submitted, env.refetched).end == Completed(finished)
    requires Truthy(DownloadLink(finished))
    requires env.fetch(DownloadUrl(DownloadLink(finished).value, env.apiKey)) == Success(HttpResponse(true, statusText))
    ensures var r := AnimateLogoVideo(imageBase64, prompt, aspectRatio, env);
      && r.outcome == Settled(Success(env.blobUrl))
      && r.trace[|r.trace| - 1] == Download(DownloadUrl(DownloadLink(finished).value, env.apiKey))
  {
  }

  /** A rejected download passes its error on. */
  lemma RejectedDownloadPassesError(imageBase64: string, prompt: string,
                                    aspectRatio: Option<VideoAspectRatio>, env: VideoEnv,
                                    submitted: Operation, finished: Operation, message: string)
    requires KeyGate(env.host).completes
    requires env.generateVideos(BuildVideoRequest(imageBase64, prompt, aspectRatio)) == Success(submitted)
    requires PollLoop(submitted, env.refetched).end == Completed(finished)
    requires Truthy(DownloadLink(finished))
    requires env.fetch(DownloadUrl(DownloadLink(finished).value, env.apiKey)) == Failure(message)
    ensures AnimateLogoVideo(imageBase64, prompt, aspectRatio, env).outcome == Settled(Failure(message))
  {
  }

  /** A rejected refetch ends the call with its error and nothing is
      downloaded. */
  lemma RejectedRefetchPassesError(imageBase64: string, prompt: string,
                                   aspectRatio: Option<VideoAspectRatio>, env: VideoEnv,
                                   submitted: Operation, message: string)
    requires KeyGate(env.host).completes
    requires env.generateVideos(BuildVideoRequest(imageBase64, prompt, aspectRatio)) == Success(submitted)
    requires PollLoop(submitted, env.refetched).end == Failed(message)
    ensures var r := AnimateLogoVideo(imageBase64, prompt, aspectRatio, env);
      && r.outcome == Settled(Failure(message))
      && !HasDownload(r.trace)
  {
  }

  /** Success means the gate completed, exactly one job was submitted and
      then finished, the last effect was a download from the finished job's
      link with the key appended, that download answered OK, and the result
      is the local blob URL. */
  lemma AnimateSuccessMeansDownloaded(imageBase64: string, prompt: string,
                                      aspectRatio: Option<VideoAspectRatio>, env: VideoEnv)
    ensures var r := AnimateLogoVideo(imageBase64, prompt, aspectRatio, env);
      var request := BuildVideoRequest(imageBase64, prompt, aspectRatio);
      r.outcome.Settled? && r.outcome.result.Success? ==>
        && KeyGate(env.host).completes
        && r.outcome.result.value == env.blobUrl
        && Count(r.trace, SubmitVideo(request)) == 1
        && env.generateVideos(request).Success?
        && PollLoop(env.generateVideos(request).value, env.refetched).end.Completed?
        && var finished := PollLoop(env.generateVideos(request).value, env.refetched).end.operation;
           && Truthy(DownloadLink(finished))
           && |r.trace| > 0
           && r.trace[|r.trace| - 1] == Download(DownloadUrl(DownloadLink(finished).value, env.apiKey))
           && env.fetch(r.trace[|r.trace| - 1].url).Success?
           && env.fetch(r.trace[|r.trace| - 1].url).value.ok
  {
    var r := AnimateLogoVideo(imageBase64, prompt, aspectRatio, env);
    if r.outcome.Settled? && r.outcome.result.Success? {
      var g := KeyGate(env.host).trace;
      var request := BuildVideoRequest(imageBase64, prompt, aspectRatio);
      var submitted := env.generateVideos(request).value;
      var rest := AwaitVideo(submitted, env);
      var poll := PollLoop(submitted, env.refetched);
      var finished := poll.end.operation;
      var fetched := FetchVideo(finished, env);
      assert rest.trace == [Sleep(InitialWaitMs)] + PollRounds(poll.rounds) + fetched.trace;
      assert r.trace == g + [SubmitVideo(request)] + rest.trace;
      CountAppend(g, [SubmitVideo(request)], SubmitVideo(request));
      CountAppend(g + [SubmitVideo(request)], rest.trace, SubmitVideo(request));
      CountAbsent(g, SubmitVideo(request));
      CountAbsent(rest.trace, SubmitVideo(request));
    }
  }
}

=== FILE: types.dfy ===
/** The shared vocabulary of the application: the workflow states, the
    generated content record and the aspect-ratio and resolution labels. */
module Types {
  import opened Wrappers

  /** The five screens of the workflow; exactly one is active. */
  datatype AppState = Idle | GeneratingImage | ReviewImage | GeneratingVideo | ReviewVideo

  /** Everything generated in one session. The image is kept as the base64
      text the image API returns and the video as a locally addressable URL;
      neither is ever decoded. */
  datatype GeneratedContent = GeneratedContent(
    imageBase64: Option<string>,
    videoUrl: Option<string>,
    imagePrompt: string,
    videoPrompt: string)

  datatype AspectRatio = Ratio1x1 | Ratio16x9 | Ratio9x16 | Ratio3x4 | Ratio4x3
  {
    /** The label the generation API receives. */
    function Label(): string {
      match this
      case Ratio1x1 => "1:1"
      case Ratio16x9 => "16:9"
      case Ratio9x16 => "9:16"
      case Ratio3x4 => "3:4"
      case Ratio4x3 => "4:3"
    }
  }

  /** The two ratios the video API accepts. */
  type VideoAspectRatio = r: AspectRatio | r == Ratio16x9 || r == Ratio9x16 witness Ratio16x9

  datatype VideoResolution = Res720p | Res1080p

  /** JavaScript truthiness of a `string | null | undefined`: null, undefined
      and the empty string are all falsy. */
  predicate Truthy(s: Option<string>) {
    s.Some? && s.value != ""
  }
}

=== FILE: ui.dfy ===
/** Which controls each screen offers and what clicking them does. The
    screens are drawn by `renderContent` in App.tsx; here only the controls
    that reach the workflow matter. Two layouts are modelled: the one the
    code returns, where the image-review screen shows a single "Placeholder"
    button, and the intended one, where that screen shows the animation form
    (the `VideoAnimator` whose `return` follows the first one and is never
    reached). */
module Ui {
  import opened Wrappers
  import opened Types
  import opened Workflow

  /** The style presets of the logo form. */
  const Styles: seq<string> := [
    "Minimalist Vector",
    "3D Glossy",
    "Abstract Geometric",
    "Vintage Badge",
    "Neon Cyberpunk",
    "Hand Drawn Sketch"
  ]

  /** The characters `String.prototype.trim` removes: white space and line
      terminators. */
  predicate IsJsWhitespace(c: char) {
    || c == '\t' || c == '\n' || c == '\U{B}' || c == '\U{C}' || c == '\r' || c == ' '
    || c == '\U{A0}' || c == '\U{1680}' || ('\U{2000}' <= c <= '\U{200A}')
    || c == '\U{2028}' || c == '\U{2029}' || c == '\U{202F}' || c == '\U{205F}'
    || c == '\U{3000}' || c == '\U{FEFF}'
  }

  /** `!text.trim()` */
  predicate IsBlank(text: string) {
    forall i :: 0 <= i < |text| ==> IsJsWhitespace(text[i])
  }

  datatype Layout = AsWritten | Intended

  datatype Action =
    | SubmitLogo(prompt: string, style: string, outcome: Call<string>)
    | SubmitAnimation(prompt: string, aspectRatio: VideoAspectRatio, outcome: Call<string>)
    | ClickPlaceholder
    | Back           // "← Create New Design" in the animation form
    | StartOver      // on the video review screen
    | HeaderReset    // the logo in the page header

  /** Whether the current screen shows the control enabled. The logo form
      submits only on the idle screen with a non-blank prompt; the animation
      form only when not generating and with a non-blank prompt; the
      image-review and video-review screens render nothing without their
      content; the header is always there. */
  predicate Offered(layout: Layout, s: Session, a: Action)
    ensures a.HeaderReset? ==> Offered(layout, s, a)
    ensures s.state == Idle ==>
      (Offered(layout, s, a) <==> a.HeaderReset? || (a.SubmitLogo? && !IsBlank(a.prompt) && a.style in Styles))
    ensures s.state == GeneratingImage ==> (Offered(layout, s, a) <==> a.HeaderReset?)
    ensures s.state == GeneratingVideo ==> (Offered(layout, s, a) <==> a.HeaderReset? || a.Back?)
    ensures s.state == ReviewImage && layout == AsWritten ==>
      (Offered(layout, s, a) <==> a.HeaderReset? || (HasImage(s) && a.ClickPlaceholder?))
    ensures s.state == ReviewImage && layout == Intended ==>
      (Offered(layout, s, a) <==>
         a.HeaderReset? || (HasImage(s) && (a.Back? || (a.SubmitAnimation? && !IsBlank(a.prompt)))))
    ensures s.state == ReviewVideo ==>
      (Offered(layout, s, a) <==> a.HeaderReset? || (Truthy(s.content.videoUrl) && a.StartOver?))
  {
    match a
    case SubmitLogo(prompt, style, _) => s.state == Idle && !IsBlank(prompt) && style in Styles
    case SubmitAnimation(prompt, _, _) =>
      layout == Intended && s.state == ReviewImage && HasImage(s) && !IsBlank(prompt)
    case ClickPlaceholder => layout == AsWritten && s.state == ReviewImage && HasImage(s)
    case Back => s.state == GeneratingVideo || (layout == Intended && s.state == ReviewImage && HasImage(s))
    case StartOver => s.state == ReviewVideo && Truthy(s.content.videoUrl)
    case HeaderReset => true
  }

  /** The effect of a control. The placeholder jumps to the generating-video
      screen without calling any handler; the animation form's back button
      does nothing while generating and resets otherwise. */
  function Apply(s: Session, a: Action): (r: Session)
    ensures a.SubmitLogo? ==> r == HandleGenerateLogo(s, a.prompt, a.outcome)
    ensures a.SubmitAnimation? ==> r == HandleAnimateLogo(s, a.prompt, a.outcome)
    ensures a.ClickPlaceholder? ==> r == Session(GeneratingVideo, s.content, s.error)
    ensures a.Back? && s.state == GeneratingVideo ==> r == s
    ensures a.Back? && s.state != GeneratingVideo ==> r == Initial
    ensures a.StartOver? || a.HeaderReset? ==> r == Initial
    ensures !a.SubmitLogo? && !a.SubmitAnimation? ==> r.content == s.content || r == Initial
  {
    match a
    case SubmitLogo(prompt, style, outcome) => Step(s, GenerateLogo(prompt, style, outcome))
    case SubmitAnimation(prompt, ratio, outcome) => Step(s, AnimateLogo(prompt, ratio, outcome))
    case ClickPlaceholder => s.(state := GeneratingVideo)
    case Back => if s.state == GeneratingVideo then s else Reset(s)
    case StartOver => Reset(s)
    case HeaderReset => Reset(s)
  }

  /** A click on a control the screen does not offer changes nothing. */
  function Click(layout: Layout, s: Session, a: Action): (r: Session)
    ensures !Offered(layout, s, a) ==> r == s
  {
    if Offered(layout, s, a) then Apply(s, a) else s
  }

  function Interact(layout: Layout, s: Session, actions: seq<Action>): Session
    decreases |actions|
  {
    if |actions| == 0 then s else Interact(layout, Click(layout, s, actions[0]), actions[1..])
  }

  /** Only the submit buttons start a generation call, and no screen offers
      one while a call is in flight. */
  lemma SingleFlight(layout: Layout, s: Session, a: Action)
    requires Offered(layout, s, a) && (a.SubmitLogo? || a.SubmitAnimation?)
    ensures s.state != GeneratingImage && s.state != GeneratingVideo
  {
  }

  lemma {:induction false} InteractPreservesWellFormed(layout: Layout, s: Session, actions: seq<Action>)
    requires WellFormed(s)
    ensures WellFormed(Interact(layout, s, actions))
    decreases |actions|
  {
    if |actions| > 0 {
      var next := Click(layout, s, actions[0]);
      if Offered(layout, s, actions[0]) && (actions[0].SubmitLogo? || actions[0].SubmitAnimation?) {
        var e := if actions[0].SubmitLogo? then GenerateLogo(actions[0].prompt, actions[0].style, actions[0].outcome)
                 else AnimateLogo(actions[0].prompt, actions[0].aspectRatio, actions[0].outcome);
        StepPreservesWellFormed(s, e);
      }
      InteractPreservesWellFormed(layout, next, actions[1..]);
    }
  }

  /** No video and not on the video review screen. */
  predicate NoVideo(s: Session) {
    s.state != ReviewVideo && s.content.videoUrl == None
  }

  lemma {:induction false} AsWrittenKeepsNoVideo(s: Session, actions: seq<Action>)
    requires NoVideo(s)
    ensures NoVideo(Interact(AsWritten, s, actions))
    decreases |actions|
  {
    if |actions| > 0 {
      AsWrittenKeepsNoVideo(Click(AsWritten, s, actions[0]), actions[1..]);
    }
  }

  /** As written, no sequence of clicks from the start ever produces a
      video or shows the video review screen: the animation form is never
      offered, and the placeholder leads to a generating screen whose only
      way out is a reset. */
  lemma AsWrittenNeverAnimates(actions: seq<Action>)
    ensures NoVideo(Interact(AsWritten, Initial, actions))
  {
    AsWrittenKeepsNoVideo(Initial, actions);
  }

  /** As written, the generating-video screen is a dead end: every control
      except a reset leaves the session as it is. */
  lemma AsWrittenGeneratingVideoIsStuck(s: Session, a: Action)
    requires s.state == GeneratingVideo
    ensures Click(AsWritten, s, a) == s || Click(AsWritten, s, a) == Initial
    ensures !a.HeaderReset? ==> Click(AsWritten, s, a) == s
  {
  }

  /** With the intended layout the same kind of session reaches the video
      review screen: generate a logo, then animate it. */
  lemma IntendedReachesReviewVideo(bytes: string, url: string)
    requires bytes != ""
    ensures var r := Interact(Intended, Initial, [
        SubmitLogo("circuit-board lion", "Neon Cyberpunk", Settled(Success(bytes))),
        SubmitAnimation("slow spin", Ratio9x16, Settled(Success(url)))]);
      && r.state == ReviewVideo
      && r.content == GeneratedContent(Some(bytes), Some(url), "circuit-board lion", "slow spin")
      && r.error == None
  {
    var a0 := SubmitLogo("circuit-board lion", "Neon Cyberpunk", Settled(Success(bytes)));
    var a1 := SubmitAnimation("slow spin", Ratio9x16, Settled(Success(url)));
    assert !IsJsWhitespace("circuit-board lion"[0]);
    assert !IsJsWhitespace("slow spin"[0]);
    assert "Neon Cyberpunk" == Styles[4];
    var s1 := Click(Intended, Initial, a0);
    assert s1.state == ReviewImage && HasImage(s1);
    var s2 := Click(Intended, s1, a1);
    assert s2.state == ReviewVideo;
    assert [a0, a1][1..] == [a1];
    assert Interact(Intended, Initial, [a0, a1]) == Interact(Intended, s1, [a1]);
    assert Interact(Intended, s1, [a1]) == Interact(Intended, s2, []);
  }
}

=== FILE: workflow.dfy ===
/** The application's workflow: a session holding the current screen, the
    generated content and the last error, and the three entry points that
    change it — generate a logo, animate it, reset. Each asynchronous
    entry point is a start step (clear the error, enter the transient
    screen) followed by a settle step that takes the awaited call's outcome. */
module Workflow {
  import opened Wrappers
  import opened Types
  import opened Gemini

  datatype Session = Session(state: AppState, content: GeneratedContent, error: Option<string>)

  const EmptyContent := GeneratedContent(None, None, "", "")

  /** The session at start-up, and after every reset. */
  const Initial := Session(Idle, EmptyContent, None)

  const ImageFailureDefault := "Failed to generate image. Please try again."
  const VideoFailureDefault := "Failed to generate video. Ensure you have selected a valid API key."

  /** `err.message || fallback`: the error shown is never empty. */
  function ErrorText(message: string, fallback: string): (r: string)
    requires fallback != ""
    ensures r != ""
    ensures message != "" ==> r == message
    ensures message == "" ==> r == fallback
  {
    if message == "" then fallback else message
  }

  /** `!content.imageBase64` is false: there is an image to animate. */
  predicate HasImage(s: Session) {
    Truthy(s.content.imageBase64)
  }

  // ---------------------------------------------------------------------
  // Logo generation
  // ---------------------------------------------------------------------

  function StartGenerateLogo(s: Session): (r: Session)
    ensures r.state == GeneratingImage && r.error == None && r.content == s.content
  {
    Session(GeneratingImage, s.content, None)
  }

  /** Success stores the image and its prompt and keeps everything else;
      failure keeps the content and shows the message or the default. */
  function SettleGenerateLogo(s: Session, prompt: string, outcome: Result<string>): (r: Session)
    ensures outcome.Success? ==>
      && r.state == ReviewImage && r.error == s.error
      && r.content == s.content.(imageBase64 := Some(outcome.value), imagePrompt := prompt)
    ensures outcome.Failure? ==>
      && r.state == Idle && r.content == s.content
      && r.error == Some(ErrorText(outcome.error, ImageFailureDefault))
  {
    match outcome
    case Success(imageBytes) =>
      s.(content := s.content.(imageBase64 := Some(imageBytes), imagePrompt := prompt), state := ReviewImage)
    case Failure(message) =>
      s.(error := Some(ErrorText(message, ImageFailureDefault)), state := Idle)
  }

  /** The whole handler: on success the image and its prompt are stored and
      the video fields are kept; on failure the content is kept and a
      non-empty error is shown on the idle screen; a call that never settles
      leaves the session generating. */
  function HandleGenerateLogo(s: Session, prompt: string, outcome: Call<string>): (r: Session)
    ensures outcome.Pending? ==> r == Session(GeneratingImage, s.content, None)
    ensures outcome.Settled? && outcome.result.Success? ==>
      && r.state == ReviewImage && r.error == None
      && r.content.imageBase64 == Some(outcome.result.value) && r.content.imagePrompt == prompt
      && r.content.videoUrl == s.content.videoUrl && r.content.videoPrompt == s.content.videoPrompt
    ensures outcome.Settled? && outcome.result.Failure? ==>
      && r.state == Idle && r.content == s.content
      && r.error.Some? && r.error.value != ""
      && (outcome.result.error != "" ==> r.error.value == outcome.result.error)
      && (outcome.result.error == "" ==> r.error.value == ImageFailureDefault)
  {
    var started := StartGenerateLogo(s);
    match outcome
    case Pending => started
    case Settled(result) => SettleGenerateLogo(started, prompt, result)
  }

  // ---------------------------------------------------------------------
  // Animation
  // ---------------------------------------------------------------------

  /** Does nothing without an image; otherwise clears the error and shows
      the generating-video screen. */
  function StartAnimateLogo(s: Session): (r: Session)
    ensures !HasImage(s) ==> r == s
    ensures HasImage(s) ==> r.state == GeneratingVideo && r.error == None && r.content == s.content
  {
    if !HasImage(s) then s else Session(GeneratingVideo, s.content, None)
  }

  /** Success stores the video and its prompt and keeps the image; failure
      returns to the image with all content kept. */
  function SettleAnimateLogo(s: Session, prompt: string, outcome: Result<string>): (r: Session)
    ensures r.content.imageBase64 == s.content.imageBase64
    ensures r.content.imagePrompt == s.content.imagePrompt
    ensures outcome.Success? ==>
      && r.state == ReviewVideo && r.error == s.error
      && r.content.videoUrl == Some(outcome.value) && r.content.videoPrompt == prompt
    ensures outcome.Failure? ==>
      && r.state == ReviewImage && r.content == s.content
      && r.error == Some(ErrorText(outcome.error, VideoFailureDefault))
  {
    match outcome
    case Success(videoUrl) =>
      s.(content := s.content.(videoUrl := Some(videoUrl), videoPrompt := prompt), state := ReviewVideo)
    case Failure(message) =>
      s.(error := Some(ErrorText(message, VideoFailureDefault)), state := ReviewImage)
  }

  /** The whole handler. Without an image nothing changes at all. With one,
      success stores the video and its prompt and keeps the image; failure
      goes back to reviewing the image, keeps every field of the content and
      shows a non-empty error. */
  function HandleAnimateLogo(s: Session, prompt: string, outcome: Call<string>): (r: Session)
    ensures !HasImage(s) ==> r == s
    ensures HasImage(s) && outcome.Pending? ==> r == Session(GeneratingVideo, s.content, None)
    ensures HasImage(s) && outcome.Settled? && outcome.result.Success? ==>
      && r.state == ReviewVideo && r.error == None
      && r.content.videoUrl == Some(outcome.result.value) && r.content.videoPrompt == prompt
      && r.content.imageBase64 == s.content.imageBase64 && r.content.imagePrompt == s.content.imagePrompt
    ensures HasImage(s) && outcome.Settled? && outcome.result.Failure? ==>
      && r.state == ReviewImage && r.content == s.content
      && r.error.Some? && r.error.value != ""
      && (outcome.result.error != "" ==> r.error.value == outcome.result.error)
      && (outcome.result.error == "" ==> r.error.value == VideoFailureDefault)
  {
    if !HasImage(s) then s
    else
      var started := StartAnimateLogo(s);
      match outcome
      case Pending => started
      case Settled(result) => SettleAnimateLogo(started, prompt, result)
  }

  // ---------------------------------------------------------------------
  // Reset
  // ---------------------------------------------------------------------

  /** Back to the idle screen with no image, no video, empty prompts and no
      error, whatever the session was. */
  function Reset(s: Session): (r: Session)
    ensures r.state == Idle && r.error == None
    ensures r.content.imageBase64 == None && r.content.videoUrl == None
    ensures r.content.imagePrompt == "" && r.content.videoPrompt == ""
  {
    Initial
  }

  lemma ResetIsCanonicalAndIdempotent(s: Session, t: Session)
    ensures Reset(s) == Reset(t) == Initial
    ensures Reset(Reset(s)) == Reset(s)
  {
  }

  // ---------------------------------------------------------------------
  // Runs of handler calls
  // ---------------------------------------------------------------------

  datatype Event =
    | GenerateLogo(prompt: string, style: string, outcome: Call<string>)
    | AnimateLogo(prompt: string, aspectRatio: VideoAspectRatio, outcome: Call<string>)
    | ResetFlow

  /** The style and the aspect ratio only shape the request; the session
      sees the outcome. */
  function Step(s: Session, e: Event): Session {
    match e
    case GenerateLogo(prompt, _, outcome) => HandleGenerateLogo(s, prompt, outcome)
    case AnimateLogo(prompt, _, outcome) => HandleAnimateLogo(s, prompt, outcome)
    case ResetFlow => Reset(s)
  }

  function Run(s: Session, events: seq<Event>): Session
    decreases |events|
  {
    if |events| == 0 then s else Run(Step(s, events[0]), events[1..])
  }

  // Two notions of "an image" appear below. `HasImage` is the truthiness
  // test the code makes before animating or rendering (App.tsx:40, :83), so
  // an empty string does not count. `imageBase64.Some?` says only that the
  // field is no longer `null` (it was assigned at App.tsx:27 and not reset
  // at App.tsx:63); it is what the handlers' assignments keep, so the
  // invariants about stored content are stated with it.

  /** A video exists only alongside an image. */
  predicate VideoNeedsImage(s: Session) {
    s.content.videoUrl.Some? ==> s.content.imageBase64.Some?
  }

  /** The screens agree with the content they show. */
  predicate WellFormed(s: Session) {
    && VideoNeedsImage(s)
    && (s.state == ReviewImage ==> s.content.imageBase64.Some?)
    && (s.state == GeneratingVideo ==> HasImage(s))
    && (s.state == ReviewVideo ==> s.content.videoUrl.Some?)
  }

  lemma StepPreservesWellFormed(s: Session, e: Event)
    requires WellFormed(s)
    ensures WellFormed(Step(s, e))
  {
  }

  /** Each start and settle step keeps the session well formed, provided an
      animation settles while its session is still generating the video. */
  lemma PhasesPreserveWellFormed(s: Session, prompt: string, outcome: Result<string>)
    requires WellFormed(s)
    ensures WellFormed(StartGenerateLogo(s))
    ensures WellFormed(SettleGenerateLogo(s, prompt, outcome))
    ensures WellFormed(StartAnimateLogo(s))
    ensures s.state == GeneratingVideo ==> WellFormed(SettleAnimateLogo(s, prompt, outcome))
  {
  }

  lemma {:induction false} RunPreservesWellFormed(s: Session, events: seq<Event>)
    requires WellFormed(s)
    ensures WellFormed(Run(s, events))
    decreases |events|
  {
    if |events| > 0 {
      StepPreservesWellFormed(s, events[0]);
      RunPreservesWellFormed(Step(s, events[0]), events[1..]);
    }
  }

  /** Whatever handlers run, in whatever order and with whatever outcomes,
      a video URL is only ever present together with an image. */
  lemma VideoOnlyWithImage(events: seq<Event>)
    ensures VideoNeedsImage(Run(Initial, events))
  {
    RunPreservesWellFormed(Initial, events);
  }

  /** Once an image is present, only a reset removes it. */
  lemma {:induction false} ImageKeptUntilReset(s: Session, events: seq<Event>)
    requires s.content.imageBase64.Some?
    requires forall i :: 0 <= i < |events| ==> !events[i].ResetFlow?
    ensures Run(s, events).content.imageBase64.Some?
    decreases |events|
  {
    if |events| > 0 {
      ImageKeptUntilReset(Step(s, events[0]), events[1..]);
    }
  }

  /** A failed animation never loses the image, from any session. */
  lemma FailedAnimationKeepsImage(s: Session, prompt: string, message: string)
    ensures HandleAnimateLogo(s, prompt, Settled(Failure(message))).content == s.content
    ensures HasImage(s) ==> HandleAnimateLogo(s, prompt, Settled(Failure(message))).state == ReviewImage
  {
  }

  // ---------------------------------------------------------------------
  // The handlers composed with the generation client
  // ---------------------------------------------------------------------

  /** `handleGenerateLogo` with the image API as a parameter. */
  function GenerateLogoWith(s: Session, prompt: string, style: string,
                            generateImages: ImageRequest -> Result<ImageResponse>): (r: Session)
    ensures r.state == ReviewImage <==> GenerateLogoImage(prompt, style, generateImages).Success?
    ensures r.state == ReviewImage ==> Truthy(r.content.imageBase64) && r.content.imagePrompt == prompt
    ensures r.state != ReviewImage ==> r.state == Idle && r.content == s.content && r.error.Some?
    ensures var client := GenerateLogoImage(prompt, style, generateImages);
      && (client.Success? ==>
            r == Session(ReviewImage, s.content.(imageBase64 := Some(client.value), imagePrompt := prompt), None))
      && (client.Failure? ==>
            r == Session(Idle, s.content, Some(ErrorText(client.error, ImageFailureDefault))))
  {
    HandleGenerateLogo(s, prompt, Settled(GenerateLogoImage(prompt, style, generateImages)))
  }

  /** `handleAnimateLogo` with the host, the video API and `fetch` as
      parameters; the client sees the image currently held. */
  function AnimateLogoWith(s: Session, prompt: string, aspectRatio: VideoAspectRatio, env: VideoEnv): (r: Session)
    ensures !HasImage(s) ==> r == s
    ensures r.content.imageBase64 == s.content.imageBase64
    ensures HasImage(s) && r.state == ReviewVideo ==> r.content.videoUrl == Some(env.blobUrl)
    ensures HasImage(s) ==>
      var run := AnimateLogoVideo(s.content.imageBase64.value, prompt, Some(aspectRatio), env);
      && (r.state == ReviewVideo <==> run.outcome.Settled? && run.outcome.result.Success?)
      && (r.state == ReviewVideo ==> r.content.videoPrompt == prompt && r.error == None)
      && (run.outcome.Settled? && run.outcome.result.Failure? ==>
            r == Session(ReviewImage, s.content, Some(ErrorText(run.outcome.result.error, VideoFailureDefault))))
      && (run.outcome.Pending? ==> r == Session(GeneratingVideo, s.content, None))
  {
    if !HasImage(s) then s
    else
      var run := AnimateLogoVideo(s.content.imageBase64.value, prompt, Some(aspectRatio), env);
      AnimateSuccessMeansDownloaded(s.content.imageBase64.value, prompt, Some(aspectRatio), env);
      HandleAnimateLogo(s, prompt, run.outcome)
  }

  /** A logo request for "circuit-board lion" in the "Neon Cyberpunk" style
      that the image API answers with bytes lands on the review screen with
      that prompt. */
  lemma LogoScenario(s: Session, bytes: string, generateImages: ImageRequest -> Result<ImageResponse>)
    requires bytes != ""
    requires generateImages(BuildImageRequest("circuit-board lion", "Neon Cyberpunk"))
      == Success(ImageResponse(Some([GeneratedImage(Some(ImageData(Some(bytes))))])))
    ensures var r := GenerateLogoWith(s, "circuit-board lion", "Neon Cyberpunk", generateImages);
      && r.state == ReviewImage && r.error == None
      && r.content.imagePrompt == "circuit-board lion" && r.content.imageBase64 == Some(bytes)
  {
  }

  /** An empty motion prompt is replaced by the default motion description
      in the request; the stored video prompt stays the caller's. */
  lemma EmptyMotionPromptScenario(s: Session, env: VideoEnv)
    requires HasImage(s) && KeyGate(env.host).completes
    ensures var r := AnimateLogoWith(s, "", Ratio9x16, env);
      var run := AnimateLogoVideo(s.content.imageBase64.value, "", Some(Ratio9x16), env);
      && run.trace[|KeyGate(env.host).trace|].request.prompt == DefaultMotionPrompt
      && run.trace[|KeyGate(env.host).trace|].request.aspectRatio == Ratio9x16
      && (r.state == ReviewVideo ==> r.content.videoPrompt == "")
  {
  }

  /** A download answered with a non-OK status sends the user back to the
      image with the status in the error, and the image untouched. */
  lemma DownloadFailureScenario(s: Session, prompt: string, aspectRatio: VideoAspectRatio, env: VideoEnv,
                                submitted: Operation, finished: Operation, statusText: string)
    requires HasImage(s)
    requires KeyGate(env.host).completes
    requires env.generateVideos(BuildVideoRequest(s.content.imageBase64.value, prompt, Some(aspectRatio))) == Success(submitted)
    requires PollLoop(submitted, env.refetched).end == Completed(finished)
    requires Truthy(DownloadLink(finished))
    requires env.fetch(DownloadUrl(DownloadLink(finished).value, env.apiKey)) == Success(HttpResponse(false, statusText))
    ensures var r := AnimateLogoWith(s, prompt, aspectRatio, env);
      && r.state == ReviewImage
      && r.error == Some(DownloadFailedPrefix + statusText)
      && r.content == s.content
  {
  }

  /** A key picker that never closes leaves the session on the generating
      screen with no error, and no video job is ever submitted. */
  lemma StalledPickerScenario(s: Session, prompt: string, aspectRatio: VideoAspectRatio, env: VideoEnv)
    requires HasImage(s) && env.host == AiStudio(false, false)
    ensures AnimateLogoWith(s, prompt, aspectRatio, env) == Session(GeneratingVideo, s.content, None)
    ensures Count(AnimateLogoVideo(s.content.imageBase64.value, prompt, Some(aspectRatio), env).trace,
                  SubmitVideo(BuildVideoRequest(s.content.imageBase64.value, prompt, Some(aspectRatio)))) == 0
  {
    var image := s.content.imageBase64.value;
    StalledPickerSubmitsNothing(image, prompt, Some(aspectRatio), env);
    CountAbsent(AnimateLogoVideo(image, prompt, Some(aspectRatio), env).trace,
                SubmitVideo(BuildVideoRequest(image, prompt, Some(aspectRatio))));
  }
}

=== FILE: wrappers.dfy ===
/** Failure-carrying wrappers shared by the client and the workflow. */
module Wrappers {

  /** A value that may be absent: TypeScript's `T | null` (or `undefined`). */
  datatype Option<+T> = None | Some(value: T)

  /** The settled value of a promise: resolved with a value, or rejected with
      an error whose `message` is `error` (an absent message is ""). */
  datatype Result<+T> = Success(value: T) | Failure(error: string)

  /** An awaited call as the caller observes it: it settled, or it never
      settles within the observed run (a hung promise or an endless poll). */
  datatype Call<+T> = Settled(result: Result<T>) | Pending
}
